=== FILE: README.md ===
# Distributed run coordination: a Dafny model

This project models the core of MeterSphere's `DistributedRunner`, the class
that starts a JMeter test on a list of remote engines and tears the run down
when they have all finished. The model has three parts, each in its own module:

- **HostList** (`host_list.dfy`) covers `getRemoteHosts`. The configured host
  string is split with `java.util.StringTokenizer` on `,`. Every maximal run of
  non-delimiter characters becomes a host, in input order. Empty fields
  disappear, and nothing is trimmed or deduplicated. `GetRemoteHosts` is the
  `hasMoreElements`/`nextElement` loop. It is proved equal to the functional
  `Tokenize`, and `Tokenize` is tied to three partners:
  - joining with `,` (a round trip);
  - a character-level collapse of delimiter runs;
  - a split that keeps every field, of which `Tokenize` keeps the non-empty ones.
- **Listener** (`listener.dfy`) covers the nested `ListenToTest`:
  - `setStartedRemoteEngines` replaces the engine queue and resets the counter.
  - Each remote `testEnded(host)` decrements the counter once and atomically.
    The call fires the distributed teardown iff the new value is `<= 0`.
  - The local `testEnded()` runs `endTest(false)`.

  Notifications are modelled one after another, because the atomic decrement
  is one step. The counter is a Java `int`: `decrementAndGet` wraps from
  `Integer.MIN_VALUE` to `Integer.MAX_VALUE`, and the queue's `size()`
  saturates at `Integer.MAX_VALUE`. Both behaviours are written out.
- **Teardown** (`teardown.dfy`) covers `endTest` and `checkForRemainingThreads`
  as a total function from their inputs to an ordered trace of effects:
  - `Exit(e)` per engine;
  - `Settle(5)` for the five-second sleep;
  - `TidyRMI`;
  - `GenerateReport`, followed by `ReportOk` or `ReportFailed`;
  - `ScheduleThreadCheck(pause)` or `DebugNoCheck`;
  - `EndOfRun`.

  The inputs are whether the end is distributed, `remoteStop`, the engine
  queue, whether a report generator is present, whether its `generate()` call
  returns normally, and the `jmeter.exit.check.pause` property, if it is set.
- **Runner** (`runner.dfy`) covers `run()` as an ordered list of steps:
  attach the listener under the first root, `init`, record the engines,
  `start`. An empty test plan makes `getArray()[0]` throw, which becomes the
  `EmptyTestPlan` error.
- **Common** (`common.dfy`) holds the `Option` and `Result` datatypes.

The code has no once-only guard beyond the counter
(`DistributedRunner.java:70`), and the model adds none. Every remote call
whose decrement leaves the counter at or below 0 starts another teardown
thread. This includes every call on a listener whose counter was never set,
because the counter starts at 0.

## Model

| member | source | states |
|---|---|---|
| HostList.GetRemoteHosts | backend/src/main/java/io/metersphere/runner/jmx/client/DistributedRunner.java:38-45 | The tokenizer loop returns exactly the hosts of the configured string, each non-empty and free of `,` |
| HostList.Tokenize | backend/src/main/java/io/metersphere/runner/jmx/client/DistributedRunner.java:38-45 | Tokenizing on the `,` separator (:20, :39) yields only non-empty, delimiter-free hosts, never more hosts than characters |
| HostList.TokenizeJoin | backend/src/main/java/io/metersphere/runner/jmx/client/DistributedRunner.java:38-45 | Any list of well-formed hosts joined with `,` tokenizes back to the same list, so order, duplicates and spaces are preserved |
| HostList.TokenizeIdempotent | backend/src/main/java/io/metersphere/runner/jmx/client/DistributedRunner.java:38-45 | Re-joining and re-tokenizing the hosts gives the same hosts |
| HostList.JoinTokenizeIsCollapse | backend/src/main/java/io/metersphere/runner/jmx/client/DistributedRunner.java:38-45 | Joining the hosts with `,` gives the input with delimiter runs collapsed to one and leading/trailing delimiters removed |
| HostList.TokenizeIsNonEmptyFields | backend/src/main/java/io/metersphere/runner/jmx/client/DistributedRunner.java:38-45 | The hosts are exactly the non-empty fields between delimiters, in order: empty fields are dropped |
| HostList.TokenizeDropsEmptyField | backend/src/main/java/io/metersphere/runner/jmx/client/DistributedRunner.java:38-45 | `"a,b,,c"` gives `["a","b","c"]` |
| HostList.TokenizeOnlyDelimiters | backend/src/main/java/io/metersphere/runner/jmx/client/DistributedRunner.java:38-45 | `""` and `",,"` give no hosts |
| HostList.TokenizeKeepsSpacesAndDuplicates | backend/src/main/java/io/metersphere/runner/jmx/client/DistributedRunner.java:38-45 | `" h1 ,h1"` gives `[" h1 ","h1"]`, with no trimming and no deduplication |
| Listener.NewListener | backend/src/main/java/io/metersphere/runner/jmx/client/DistributedRunner.java:50-57 | A new listener holds no engines and a counter of 0, with the given `remoteStop` and report generator |
| Listener.SetStartedRemoteEngines | backend/src/main/java/io/metersphere/runner/jmx/client/DistributedRunner.java:59-63 | The queue becomes exactly the given engines, not an append. The counter becomes their number, saturated at `Integer.MAX_VALUE` as the queue's `size()` is. The configuration is untouched |
| Listener.SetStartedRemoteEnginesReplaces | backend/src/main/java/io/metersphere/runner/jmx/client/DistributedRunner.java:59-63 | The state after recording engines does not depend on the engines or counter held before |
| Listener.TestEndedRemote | backend/src/main/java/io/metersphere/runner/jmx/client/DistributedRunner.java:67-77 | One remote end lowers the counter by exactly 1, wrapping from `Integer.MIN_VALUE` to `Integer.MAX_VALUE` as `decrementAndGet` does. It fires teardown iff the new value is at most 0. The queue and configuration are unchanged |
| Listener.NotifyAllCounts | backend/src/main/java/io/metersphere/runner/jmx/client/DistributedRunner.java:67-77 | After k sequential remote ends from counter c, the counter is c - k, and call i fires iff c - (i+1) <= 0 |
| Listener.OnlyLastOfFirstNFires | backend/src/main/java/io/metersphere/runner/jmx/client/DistributedRunner.java:59-77 | After N >= 1 engines are recorded, only the N-th of the first N remote ends fires teardown, it fires exactly once among them, and the counter ends at 0 |
| Listener.LaterCallsFireAgain | backend/src/main/java/io/metersphere/runner/jmx/client/DistributedRunner.java:67-77 | With no once-only guard, every remote end from the N-th onward fires teardown |
| Listener.FreshListenerAlwaysFires | backend/src/main/java/io/metersphere/runner/jmx/client/DistributedRunner.java:50-70 | With the initial counter of 0, every remote end fires teardown |
| Listener.TwoHostsExample | backend/src/main/java/io/metersphere/runner/jmx/client/DistributedRunner.java:59-77 | With two engines, the first remote end (2 to 1) does not fire and the second (1 to 0) does |
| Listener.RemoteTestStopper | backend/src/main/java/io/metersphere/runner/jmx/client/DistributedRunner.java:70-76 | The teardown thread runs the distributed `endTest(true)` on the listener's state. Its trace settles, tidies RMI and ends with the end of the run. It is ordered by phase, and it exits the whole queue in order if `remoteStop` is set and nothing otherwise |
| Listener.TestEndedLocal | backend/src/main/java/io/metersphere/runner/jmx/client/DistributedRunner.java:81-83 | A local end is `endTest(false)` on the listener's state. It never exits, settles or tidies RMI: it is the optional two-effect report step, the thread check and the end of the run, in phase order |
| Teardown.CheckForRemainingThreads | backend/src/main/java/io/metersphere/runner/jmx/client/DistributedRunner.java:141-165 | The pause is the property's value, or 2000 when it is unset. The result is exactly one effect: the scheduled check carrying that pause iff it is positive, otherwise the debug line |
| Teardown.ExitAll | backend/src/main/java/io/metersphere/runner/jmx/client/DistributedRunner.java:110-113 | One `Exit` per engine, at the engine's position in the queue |
| Teardown.EndTest | backend/src/main/java/io/metersphere/runner/jmx/client/DistributedRunner.java:99-135 | When every foreign call returns or throws only a caught `Exception`, the teardown runs to completion and its last effect is the end of the run, whether the report succeeds or fails |
| Teardown.EndTestExits | backend/src/main/java/io/metersphere/runner/jmx/client/DistributedRunner.java:107-114 | The engines exited are the whole queue, once each and in order, iff the end is distributed with `remoteStop`; otherwise none |
| Teardown.EndTestOrdered | backend/src/main/java/io/metersphere/runner/jmx/client/DistributedRunner.java:99-135 | The phases never go backwards: exits, then settle, then tidy RMI, then report, then thread check, then end; every phase except the exits occurs at most once |
| Teardown.DistributedRemoteStopPrefix | backend/src/main/java/io/metersphere/runner/jmx/client/DistributedRunner.java:107-121 | A distributed end with `remoteStop` begins with one `Exit` per engine in queue order, then `Settle(5)`, then `TidyRMI` |
| Teardown.DistributedWithoutRemoteStop | backend/src/main/java/io/metersphere/runner/jmx/client/DistributedRunner.java:107-121 | A distributed end without `remoteStop` exits nothing and begins with `Settle(5)`, then `TidyRMI` |
| Teardown.LocalEnd | backend/src/main/java/io/metersphere/runner/jmx/client/DistributedRunner.java:101-135 | A local end has no `Exit`, `Settle` or `TidyRMI`; it is the optional two-effect report step, the thread check and the end of the run |
| Teardown.ReportHandling | backend/src/main/java/io/metersphere/runner/jmx/client/DistributedRunner.java:123-134 | The report step occurs iff a generator is present; success shows as `ReportOk` and failure as `ReportFailed` |
| Teardown.ReportFailureContinues | backend/src/main/java/io/metersphere/runner/jmx/client/DistributedRunner.java:123-134 | A generator that throws an `Exception` does not stop the teardown: `ReportFailed` occurs, third from last, and is followed by the thread check and then the end of the run, which is the last effect |
| Teardown.ThreadCheck | backend/src/main/java/io/metersphere/runner/jmx/client/DistributedRunner.java:133-164 | The teardown schedules the leftover-thread check iff the pause is positive, and writes only the debug line iff it is not |
| Teardown.DefaultPauseSchedulesCheck | backend/src/main/java/io/metersphere/runner/jmx/client/DistributedRunner.java:144-164 | With the pause property unset, every teardown schedules the leftover-thread check after the default 2000 ms. A property of 0 or less schedules no check and writes the debug line |
| Runner.Run | backend/src/main/java/io/metersphere/runner/jmx/client/DistributedRunner.java:29-36 | run() fails iff the test plan has no root. Otherwise it takes four steps in order: attach under the first root, init with the tokenized hosts, record the engines init started, start. Its listener has `remoteStop` off, no report generator, and a counter equal to the number of engines |
| Runner.RunThenAllEnginesEnd | backend/src/main/java/io/metersphere/runner/jmx/client/DistributedRunner.java:29-121 | After a run over N >= 1 engines, only the N-th remote end fires teardown. That teardown exits no engine: it settles, tidies RMI, runs the thread check and ends the run |

## Left out

- The `testStarted` overloads only log, so they are not modelled.
- Logging, `System.out`/`System.err`, `System.currentTimeMillis` and `Date` are output and clock reads, so they are not modelled.
- Thread creation and daemon flags are not modelled. Starting the `RemoteTestStopper` thread is the `firesTeardown` flag of `Listener.Ended`, and the thread's work is the trace the function `Listener.RemoteTestStopper` returns. Only the leftover-thread check is an event in the trace (`ScheduleThreadCheck`).
- Interleavings of RMI callbacks are not modelled. Notifications form one sequence, because `decrementAndGet` is atomic.
- The sleeps and their interrupt handling are not modelled. The five-second sleep is the `Settle(5)` event whether or not it is interrupted.
- What the leftover-thread check prints later (`JOrphanUtils.displayThreads`) is outside this model. Only its scheduling is modelled.
- The JMeter base class is foreign: `init`, `start` and `getEngines`. `init` and `start` are steps of the run trace. The engines `init` creates are an input, and its own failure handling is not modelled.
- `ClientJMeterEngine.tidyRMI`, `JMeterEngine.exit` and `ReportGenerator.generate` are foreign calls. Each is an event in the trace. Whether `generate()` throws an `Exception` is an input.
- An `Error` from `generate()` is not modelled. `catch (Exception ex)` (`DistributedRunner.java:128`) does not catch it, so it would skip the thread check and the end of the run. `reportSucceeds == false` stands for an `Exception` only.
- An exception from `exit()` is not modelled. `exit()` has no `try` around it (`DistributedRunner.java:110-113`), so an exception would end the loop and skip the remaining exits, `Settle`, `TidyRMI`, the report, the thread check and `EndOfRun`. The model assumes every `exit()` returns.
- An exception from `tidyRMI` is not modelled either. It is likewise unguarded (`DistributedRunner.java:120`) and would skip the rest of the teardown.
- `HashTree` is abstract: only the list of root elements matters, and attaching the listener is a step.
- `JMeterUtils` property parsing is not modelled. The pause property is an optional, already parsed integer.
- A `null` host string, which would make the tokenizer throw, is not modelled: hosts are a non-null `string`.
- The `DistributedRunner` constructor only stores its two arguments, so it has no member of its own.
- Listener.RemoteTestStopper: computes the teardown from the listener's state at the moment the firing call returns. In the source the thread reads the queue later, which only matters under concurrency.
- Listener.NotifyAllCounts: states the counting only while the counter cannot wrap past `Integer.MIN_VALUE`. Wrapping would take more than 2^31 calls beyond the number of engines.
- Listener.LaterCallsFireAgain: is stated under the same no-wrap bound.
- Listener.FreshListenerAlwaysFires: is stated under the same no-wrap bound.

=== FILE: common.dfy ===
/** Small failure-carrying datatypes shared by the other modules. */
module Common {

  /** A value that may be absent, e.g. a configuration property that is not set. */
  datatype Option<+T> = None | Some(value: T) {
    function GetOr(default: T): T {
      match this
      case Some(v) => v
      case None => default
    }
  }

  /** The outcome of an operation that may throw: its value, or the error it raises. */
  datatype Result<+R, +E> = Success(value: R) | Failure(error: E)
}

=== FILE: host_list.dfy ===
/**
 * The remote host list of a distributed run.
 *
 * The configured host string is split with `java.util.StringTokenizer` on the
 * single delimiter `,`: the hosts are the maximal runs of non-delimiter
 * characters, in input order.  Empty fields vanish, nothing is trimmed and
 * nothing is deduplicated.
 */
module HostList {

  /** The delimiter the runner hands to the tokenizer. */
  const Separator: char := ','

  /** A well-formed host: non-empty and free of the delimiter. */
  predicate IsHost(h: string) {
    h != [] && Separator !in h
  }

  predicate AllHosts(hosts: seq<string>) {
    forall k :: 0 <= k < |hosts| ==> IsHost(hosts[k])
  }

  // ---------------------------------------------------------------------------
  // The tokenizer
  // ---------------------------------------------------------------------------

  /** Length of the longest prefix of `s` that holds no delimiter. */
  function TokenLength(s: string): (n: nat)
    ensures n <= |s|
    ensures forall i :: 0 <= i < n ==> s[i] != Separator
    ensures n < |s| ==> s[n] == Separator
  {
    if s == [] || s[0] == Separator then 0 else 1 + TokenLength(s[1..])
  }

  /** The hosts of `s`: its maximal delimiter-free runs, left to right. */
  function Tokenize(s: string): (hosts: seq<string>)
    ensures AllHosts(hosts)
    ensures |hosts| <= |s|
    decreases |s|
  {
    if s == [] then []
    else if s[0] == Separator then Tokenize(s[1..])
    else
      var n := TokenLength(s);
      [s[..n]] + Tokenize(s[n..])
  }

  // ---------------------------------------------------------------------------
  // The scanning loop of getRemoteHosts
  // ---------------------------------------------------------------------------

  /** First position at or after `pos` that is not a delimiter (StringTokenizer.skipDelimiters). */
  function SkipDelimiters(s: string, pos: nat): (p: nat)
    requires pos <= |s|
    ensures pos <= p <= |s|
    ensures forall i :: pos <= i < p ==> s[i] == Separator
    ensures p < |s| ==> s[p] != Separator
    decreases |s| - pos
  {
    if pos < |s| && s[pos] == Separator then SkipDelimiters(s, pos + 1) else pos
  }

  /** First position at or after `pos` that is a delimiter, or the end (StringTokenizer.scanToken). */
  function ScanToken(s: string, pos: nat): (p: nat)
    requires pos <= |s|
    ensures pos <= p <= |s|
    ensures forall i :: pos <= i < p ==> s[i] != Separator
    ensures p < |s| ==> s[p] == Separator
    decreases |s| - pos
  {
    if pos < |s| && s[pos] != Separator then ScanToken(s, pos + 1) else pos
  }

  /**
   * getRemoteHosts: drain a tokenizer over `hosts` into a list, one
   * hasMoreElements/nextElement round per iteration.
   */
  method GetRemoteHosts(hosts: string) returns (list: seq<string>)
    ensures list == Tokenize(hosts)
    ensures AllHosts(list)
  {
    list := [];
    var pos := 0;
    while SkipDelimiters(hosts, pos) < |hosts|
      invariant pos <= |hosts|
      invariant list + Tokenize(hosts[pos..]) == Tokenize(hosts)
      decreases |hosts| - pos
    {
      var start := SkipDelimiters(hosts, pos);
      var end := ScanToken(hosts, start);
      SkipPreservesTokens(hosts, pos);
      ScanYieldsToken(hosts, start);
      list := list + [hosts[start..end]];
      pos := end;
    }
    SkipPreservesTokens(hosts, pos);
  }

  /** Skipping delimiters does not change the hosts still to come. */
  lemma {:induction false} SkipPreservesTokens(s: string, pos: nat)
    requires pos <= |s|
    ensures Tokenize(s[pos..]) == Tokenize(s[SkipDelimiters(s, pos)..])
    decreases |s| - pos
  {
    if pos < |s| && s[pos] == Separator {
      assert s[pos..][1..] == s[pos + 1..];
      SkipPreservesTokens(s, pos + 1);
    }
  }

  /** At a non-delimiter, the next host is the run up to the next delimiter. */
  lemma ScanYieldsToken(s: string, start: nat)
    requires start < |s| && s[start] != Separator
    ensures Tokenize(s[start..]) == [s[start..ScanToken(s, start)]] + Tokenize(s[ScanToken(s, start)..])
  {
    var t := s[start..];
    var e := ScanToken(s, start);
    ScanIsTokenLength(s, start);
    TokenizeAtHost(t);
    var n := TokenLength(t);
    assert n == e - start;
    assert t[..n] == s[start..e];
    assert t[n..] == s[e..];
  }

  /** One unfolding of Tokenize at a host character. */
  lemma TokenizeAtHost(t: string)
    requires t != [] && t[0] != Separator
    ensures Tokenize(t) == [t[..TokenLength(t)]] + Tokenize(t[TokenLength(t)..])
  {
  }

  /** ScanToken ends where the token starting at `pos` ends. */
  lemma {:induction false} ScanIsTokenLength(s: string, pos: nat)
    requires pos <= |s|
    ensures ScanToken(s, pos) == pos + TokenLength(s[pos..])
    decreases |s| - pos
  {
    if pos < |s| && s[pos] != Separator {
      assert s[pos..][1..] == s[pos + 1..];
      ScanIsTokenLength(s, pos + 1);
    }
  }

  /** TokenLength is the only length whose prefix is delimiter-free and ends at a delimiter or the end. */
  lemma TokenLengthUnique(s: string, n: nat)
    requires n <= |s|
    requires forall i :: 0 <= i < n ==> s[i] != Separator
    requires n < |s| ==> s[n] == Separator
    ensures TokenLength(s) == n
  {
  }

  // ---------------------------------------------------------------------------
  // Joining: the inverse direction
  // ---------------------------------------------------------------------------

  /** The hosts written back with the delimiter between neighbours. */
  function Join(hosts: seq<string>): string
  {
    if hosts == [] then []
    else if |hosts| == 1 then hosts[0]
    else hosts[0] + [Separator] + Join(hosts[1..])
  }

  lemma JoinCons(h: string, rest: seq<string>)
    ensures Join([h] + rest) == h + (if rest == [] then [] else [Separator] + Join(rest))
  {
    assert ([h] + rest)[1..] == rest;
  }

  /** Tokenizing a delimiter-prefixed string ignores the delimiter. */
  lemma TokenizeSkipsLeading(t: string)
    ensures Tokenize([Separator] + t) == Tokenize(t)
  {
    assert ([Separator] + t)[1..] == t;
  }

  /** Round trip: well-formed hosts joined with `,` tokenize back to themselves. */
  lemma {:induction false} TokenizeJoin(hosts: seq<string>)
    requires AllHosts(hosts)
    ensures Tokenize(Join(hosts)) == hosts
    decreases |hosts|
  {
    if hosts != [] {
      var h, rest := hosts[0], hosts[1..];
      assert hosts == [h] + rest;
      JoinCons(h, rest);
      var tail := if rest == [] then [] else [Separator] + Join(rest);
      var s := Join(hosts);
      assert s == h + tail;
      TokenLengthUnique(s, |h|);
      assert s[..|h|] == h;
      assert s[|h|..] == tail;
      if rest != [] {
        TokenizeSkipsLeading(Join(rest));
        TokenizeJoin(rest);
      }
    }
  }

  /** Tokenizing is idempotent: re-joining and re-tokenizing the hosts changes nothing. */
  lemma TokenizeIdempotent(s: string)
    ensures Tokenize(Join(Tokenize(s))) == Tokenize(s)
  {
    TokenizeJoin(Tokenize(s));
  }

  // ---------------------------------------------------------------------------
  // Collapsing delimiter runs: a character-level description of Join(Tokenize(s))
  // ---------------------------------------------------------------------------

  /**
   * `s` with leading and trailing delimiters removed and every run of
   * delimiters between two hosts squeezed to one.
   */
  function Collapse(s: string): string
    decreases |s|, 1
  {
    if s == [] then []
    else if s[0] == Separator then Collapse(s[1..])
    else [s[0]] + AfterHostChar(s[1..])
  }

  /** Collapse of the text that follows a host character. */
  function AfterHostChar(s: string): string
    decreases |s|, 0
  {
    if s == [] then []
    else if s[0] != Separator then [s[0]] + AfterHostChar(s[1..])
    else
      var c := Collapse(s[1..]);
      if c == [] then [] else [Separator] + c
  }

  /** Joining the hosts of `s` reproduces `s` with delimiter runs collapsed and the ends stripped. */
  lemma {:induction false} JoinTokenizeIsCollapse(s: string)
    ensures Join(Tokenize(s)) == Collapse(s)
    decreases |s|, 1, 0
  {
    if s == [] {
    } else if s[0] == Separator {
      JoinTokenizeIsCollapse(s[1..]);
    } else {
      var n := TokenLength(s);
      var rest := Tokenize(s[n..]);
      AfterHostCharSplit(s[1..]);
      assert TokenLength(s[1..]) == n - 1;
      assert s[1..][..n - 1] == s[1..n];
      assert s[1..][n - 1..] == s[n..];
      JoinCons(s[..n], rest);
      assert [s[0]] + s[1..n] == s[..n];
    }
  }

  lemma {:induction false} AfterHostCharSplit(s: string)
    ensures var n := TokenLength(s);
            var rest := Tokenize(s[n..]);
            AfterHostChar(s) == s[..n] + (if rest == [] then [] else [Separator] + Join(rest))
    decreases |s|, 0, 1
  {
    if s == [] {
    } else if s[0] != Separator {
      AfterHostCharHostStep(s);
    } else {
      assert s[0..] == s;
      JoinTokenizeIsCollapse(s[1..]);
      JoinNonEmpty(Tokenize(s[1..]));
    }
  }

  /** The host-character case of AfterHostCharSplit, from the same fact one character on. */
  lemma {:induction false} AfterHostCharHostStep(s: string)
    requires s != [] && s[0] != Separator
    ensures var n := TokenLength(s);
            var rest := Tokenize(s[n..]);
            AfterHostChar(s) == s[..n] + (if rest == [] then [] else [Separator] + Join(rest))
    decreases |s|, 0, 0
  {
    var t := s[1..];
    var m := TokenLength(t);
    var n := TokenLength(s);
    var rest := Tokenize(s[n..]);
    var sep := if rest == [] then [] else [Separator] + Join(rest);
    assert n == m + 1 && t[m..] == s[n..];
    assert [s[0]] + t[..m] == s[..n];
    calc {
      AfterHostChar(s);
      [s[0]] + AfterHostChar(t);
      { AfterHostCharSplit(t); }
      [s[0]] + (t[..m] + sep);
      ([s[0]] + t[..m]) + sep;
      s[..n] + sep;
    }
  }

  /** Joining at least one host gives a non-empty string. */
  lemma JoinNonEmpty(hosts: seq<string>)
    requires AllHosts(hosts)
    ensures Join(hosts) == [] <==> hosts == []
  {
    if hosts != [] {
      JoinCons(hosts[0], hosts[1..]);
      assert hosts == [hosts[0]] + hosts[1..];
    }
  }

  // ---------------------------------------------------------------------------
  // Fields: the tokenizer drops exactly the empty fields
  // ---------------------------------------------------------------------------

  /** Every field between delimiters, empty ones included (a split that keeps them all). */
  function Fields(s: string): (fields: seq<string>)
    ensures |fields| >= 1
    decreases |s|
  {
    if s == [] then [[]]
    else if s[0] == Separator then [[]] + Fields(s[1..])
    else
      var rest := Fields(s[1..]);
      [[s[0]] + rest[0]] + rest[1..]
  }

  /** The non-empty members of `fields`, in order. */
  function NonEmpty(fields: seq<string>): seq<string>
  {
    if fields == [] then []
    else if fields[0] == [] then NonEmpty(fields[1..])
    else [fields[0]] + NonEmpty(fields[1..])
  }

  lemma {:induction false} NonEmptyAppend(a: seq<string>, b: seq<string>)
    ensures NonEmpty(a + b) == NonEmpty(a) + NonEmpty(b)
    decreases |a|
  {
    if a == [] {
      assert a + b == b;
    } else {
      assert (a + b)[1..] == a[1..] + b;
      NonEmptyAppend(a[1..], b);
    }
  }

  /** Fields(s) is the first host-length field followed by the fields after the next delimiter. */
  lemma {:induction false} FieldsSplit(s: string)
    ensures var n := TokenLength(s);
            Fields(s) == [s[..n]] + (if n == |s| then [] else Fields(s[n + 1..]))
    decreases |s|
  {
    if s != [] && s[0] != Separator {
      var n := TokenLength(s);
      FieldsSplit(s[1..]);
      assert [s[0]] + s[1..][..n - 1] == s[..n];
      if n < |s| {
        assert s[1..][n..] == s[n + 1..];
      }
    } else if s != [] {
      assert s[1..] == s[0 + 1..];
    }
  }

  /** The fields are delimiter-free and join back to exactly the input. */
  lemma {:induction false} FieldsJoin(s: string)
    ensures Join(Fields(s)) == s
    ensures forall k :: 0 <= k < |Fields(s)| ==> Separator !in Fields(s)[k]
    decreases |s|
  {
    var n := TokenLength(s);
    FieldsSplit(s);
    var fs := Fields(s);
    if n == |s| {
      assert s[..n] == s;
      assert forall i :: 0 <= i < |s| ==> s[i] != Separator;
    } else {
      FieldsJoin(s[n + 1..]);
      JoinCons(s[..n], Fields(s[n + 1..]));
      assert s == s[..n] + [Separator] + s[n + 1..];
      assert forall i :: 0 <= i < n ==> s[..n][i] != Separator;
    }
  }

  /** StringTokenizer semantics: the hosts are exactly the non-empty fields. */
  lemma {:induction false} TokenizeIsNonEmptyFields(s: string)
    ensures Tokenize(s) == NonEmpty(Fields(s))
    decreases |s|
  {
    if s == [] {
    } else if s[0] == Separator {
      TokenizeIsNonEmptyFields(s[1..]);
      assert Fields(s) == [[]] + Fields(s[1..]);
      assert Tokenize(s) == Tokenize(s[1..]);
    } else {
      var n := TokenLength(s);
      var host := s[..n];
      var tail := if n == |s| then [] else Fields(s[n + 1..]);
      FieldsSplit(s);
      assert Fields(s) == [host] + tail;
      TokenizeAtHost(s);
      assert Tokenize(s) == [host] + Tokenize(s[n..]);
      NonEmptyAppend([host], tail);
      assert NonEmpty([host]) == [host];
      if n < |s| {
        TokenizeIsNonEmptyFields(s[n + 1..]);
        TokenizeSkipsLeading(s[n + 1..]);
        assert s[n..] == [Separator] + s[n + 1..];
      } else {
        assert s[n..] == [];
      }
    }
  }

  // ---------------------------------------------------------------------------
  // Examples
  // ---------------------------------------------------------------------------

  lemma TokenizeDropsEmptyField()
    ensures Tokenize("a,b,,c") == ["a", "b", "c"]
  {
    assert TokenLength("c") == 1;
    assert "c"[..1] == "c" && "c"[1..] == "";
    assert Tokenize("c") == ["c"];
    assert ",c"[1..] == "c";
    assert ",,c"[1..] == ",c";
    assert TokenLength("b,,c") == 1;
    assert "b,,c"[..1] == "b" && "b,,c"[1..] == ",,c";
    assert Tokenize("b,,c") == ["b", "c"];
    assert ",b,,c"[1..] == "b,,c";
    assert TokenLength("a,b,,c") == 1;
    assert "a,b,,c"[..1] == "a" && "a,b,,c"[1..] == ",b,,c";
  }

  lemma TokenizeOnlyDelimiters()
    ensures Tokenize("") == []
    ensures Tokenize(",,") == []
  {
    assert ",,"[1..] == ",";
    assert ","[1..] == "";
  }

  lemma TokenizeKeepsSpacesAndDuplicates()
    ensures Tokenize(" h1 ,h1") == [" h1 ", "h1"]
  {
    TokenizeJoin([" h1 ", "h1"]);
    assert Join([" h1 ", "h1"]) == " h1 ,h1";
  }
}

=== FILE: listener.dfy ===
/**
 * ListenToTest: the test-state listener a distributed run attaches to its
 * test plan.  It counts the remote engines that have not yet reported the
 * end of their test and starts the distributed teardown from the call whose
 * decrement brings the count to zero or below.
 *
 * Notifications are modelled one after another: AtomicInteger.decrementAndGet
 * is a single atomic step, so any interleaving of the RMI callbacks is one of
 * these sequences.
 */
module Listener {

  import opened Common
  import opened Teardown

  const MinInt32: int := -0x8000_0000
  const MaxInt32: int := 0x7fff_ffff

  /** The value range of a Java `int`, and so of an AtomicInteger. */
  type Int32 = x: int | MinInt32 <= x <= MaxInt32

  /** AtomicInteger.decrementAndGet: one less, wrapping from the minimum to the maximum. */
  function DecrementAndGet(v: Int32): Int32 {
    if v == MinInt32 then MaxInt32 else v - 1
  }

  /** ConcurrentLinkedQueue.size(): the number of elements, saturated at Integer.MAX_VALUE. */
  function QueueSize(q: seq<Engine>): Int32 {
    if |q| > MaxInt32 then MaxInt32 else |q|
  }

  /**
   * The listener's state: its configuration (remoteStop, whether a report
   * generator is present), the counter of engines still running and the
   * queue of remote engines.
   */
  datatype ListenToTest = ListenToTest(
    remoteStop: bool,
    hasReportGenerator: bool,
    startedRemoteEngines: Int32,
    remoteEngines: seq<Engine>)

  /** The constructor: no engines recorded and a counter of 0. */
  function NewListener(remoteStop: bool, hasReportGenerator: bool): (l: ListenToTest)
    ensures l.remoteEngines == [] && l.startedRemoteEngines == 0
    ensures l.remoteStop == remoteStop && l.hasReportGenerator == hasReportGenerator
  {
    ListenToTest(remoteStop, hasReportGenerator, 0, [])
  }

  /**
   * setStartedRemoteEngines: the queue becomes exactly `engines` (the old
   * contents are cleared, not appended to) and the counter is reset to the
   * number of engines.
   */
  function SetStartedRemoteEngines(l: ListenToTest, engines: seq<Engine>): (l': ListenToTest)
    ensures l'.remoteEngines == engines
    ensures |engines| <= MaxInt32 ==> l'.startedRemoteEngines == |engines|
    ensures |engines| > MaxInt32 ==> l'.startedRemoteEngines == MaxInt32
    ensures l'.remoteStop == l.remoteStop && l'.hasReportGenerator == l.hasReportGenerator
  {
    // clear() then addAll(engines); the new counter reads the queue's size
    l.(remoteEngines := engines, startedRemoteEngines := QueueSize(engines))
  }

  /** The listener after one remote "test ended" call, and whether that call starts the teardown thread. */
  datatype Ended = Ended(listener: ListenToTest, firesTeardown: bool)

  /**
   * testEnded(host): decrement the counter atomically; the call fires the
   * distributed teardown iff the value after the decrement is at most 0.
   * There is no other guard, so every later call fires again.
   */
  function TestEndedRemote(l: ListenToTest, host: string): (r: Ended)
    ensures r.listener.remoteEngines == l.remoteEngines
    ensures r.listener.remoteStop == l.remoteStop && r.listener.hasReportGenerator == l.hasReportGenerator
    ensures l.startedRemoteEngines > MinInt32 ==> r.listener.startedRemoteEngines == l.startedRemoteEngines - 1
    ensures l.startedRemoteEngines == MinInt32 ==> r.listener.startedRemoteEngines == MaxInt32
    ensures r.firesTeardown <==> r.listener.startedRemoteEngines <= 0
  {
    var now := DecrementAndGet(l.startedRemoteEngines);
    Ended(l.(startedRemoteEngines := now), now <= 0)
  }

  /** The RemoteTestStopper thread a firing call starts: endTest(true) on the listener's state. */
  function RemoteTestStopper(l: ListenToTest, reportSucceeds: bool, pauseProperty: Option<int>): (trace: seq<Effect>)
    ensures trace == EndTest(true, l.remoteStop, l.remoteEngines, l.hasReportGenerator, reportSucceeds, pauseProperty)
    ensures Exits(trace) == (if l.remoteStop then l.remoteEngines else [])
    ensures Ordered(trace)
    ensures Settle(SettleSeconds) in trace && TidyRMI in trace && trace[|trace| - 1] == EndOfRun
  {
    var trace := EndTest(true, l.remoteStop, l.remoteEngines, l.hasReportGenerator, reportSucceeds, pauseProperty);
    EndTestExits(true, l.remoteStop, l.remoteEngines, l.hasReportGenerator, reportSucceeds, pauseProperty);
    EndTestOrdered(true, l.remoteStop, l.remoteEngines, l.hasReportGenerator, reportSucceeds, pauseProperty);
    trace
  }

  /** testEnded(): the local end, endTest(false), run directly by the caller. */
  function TestEndedLocal(l: ListenToTest, reportSucceeds: bool, pauseProperty: Option<int>): (trace: seq<Effect>)
    ensures Exits(trace) == []
    ensures Ordered(trace)
    ensures trace == EndTest(false, l.remoteStop, l.remoteEngines, l.hasReportGenerator, reportSucceeds, pauseProperty)
    ensures forall i :: 0 <= i < |trace| ==> !trace[i].Settle? && trace[i] != TidyRMI
    ensures |trace| == (if l.hasReportGenerator then 4 else 2)
    ensures Phase(trace[|trace| - 2]) == 5 && trace[|trace| - 1] == EndOfRun
  {
    var trace := EndTest(false, l.remoteStop, l.remoteEngines, l.hasReportGenerator, reportSucceeds, pauseProperty);
    EndTestExits(false, l.remoteStop, l.remoteEngines, l.hasReportGenerator, reportSucceeds, pauseProperty);
    EndTestOrdered(false, l.remoteStop, l.remoteEngines, l.hasReportGenerator, reportSucceeds, pauseProperty);
    LocalEnd(l.remoteStop, l.remoteEngines, l.hasReportGenerator, reportSucceeds, pauseProperty);
    trace
  }

  // ---------------------------------------------------------------------------
  // Sequences of notifications
  // ---------------------------------------------------------------------------

  /** The listener after `hosts` report their end one after another, and which of those calls fire teardown. */
  datatype Notified = Notified(listener: ListenToTest, fires: seq<bool>)

  function NotifyAll(l: ListenToTest, hosts: seq<string>): (r: Notified)
    ensures |r.fires| == |hosts|
    ensures r.listener.remoteEngines == l.remoteEngines
    ensures r.listener.remoteStop == l.remoteStop && r.listener.hasReportGenerator == l.hasReportGenerator
    decreases |hosts|
  {
    if hosts == [] then Notified(l, [])
    else
      var first := TestEndedRemote(l, hosts[0]);
      var rest := NotifyAll(first.listener, hosts[1..]);
      Notified(rest.listener, [first.firesTeardown] + rest.fires)
  }

  /** How many calls fired teardown. */
  function CountFired(fires: seq<bool>): nat
  {
    if fires == [] then 0 else (if fires[0] then 1 else 0) + CountFired(fires[1..])
  }

  /**
   * Starting from counter `c`, as long as the counter does not wrap, each call
   * lowers it by exactly one and the i-th call (from 0) fires iff c - (i + 1) <= 0.
   */
  lemma {:induction false} NotifyAllCounts(l: ListenToTest, hosts: seq<string>)
    requires |hosts| <= l.startedRemoteEngines - MinInt32
    ensures NotifyAll(l, hosts).listener.startedRemoteEngines == l.startedRemoteEngines - |hosts|
    ensures forall i :: 0 <= i < |hosts| ==>
              (NotifyAll(l, hosts).fires[i] <==> l.startedRemoteEngines - (i + 1) <= 0)
    decreases |hosts|
  {
    if hosts != [] {
      var first := TestEndedRemote(l, hosts[0]);
      NotifyAllCounts(first.listener, hosts[1..]);
      var r := NotifyAll(l, hosts);
      forall i | 0 <= i < |hosts|
        ensures r.fires[i] <==> l.startedRemoteEngines - (i + 1) <= 0
      {
        if i > 0 {
          assert r.fires[i] == NotifyAll(first.listener, hosts[1..]).fires[i - 1];
        }
      }
    }
  }

  /**
   * With N >= 1 engines recorded, among the first N notifications only the
   * N-th fires teardown, and it fires exactly once among them.
   */
  lemma OnlyLastOfFirstNFires(l: ListenToTest, engines: seq<Engine>, hosts: seq<string>)
    requires 1 <= |engines| <= MaxInt32
    requires |hosts| == |engines|
    ensures var r := NotifyAll(SetStartedRemoteEngines(l, engines), hosts);
            && (forall i :: 0 <= i < |hosts| ==> (r.fires[i] <==> i == |engines| - 1))
            && CountFired(r.fires) == 1
            && r.listener.startedRemoteEngines == 0
  {
    var started := SetStartedRemoteEngines(l, engines);
    NotifyAllCounts(started, hosts);
    var fires := NotifyAll(started, hosts).fires;
    CountOnlyLast(fires);
  }

  lemma {:induction false} CountOnlyLast(fires: seq<bool>)
    requires fires != []
    requires forall i :: 0 <= i < |fires| ==> (fires[i] <==> i == |fires| - 1)
    ensures CountFired(fires) == 1
    decreases |fires|
  {
    if |fires| > 1 {
      CountOnlyLast(fires[1..]);
    }
  }

  /**
   * Notifications past the N-th fire again: there is no once-only guard, so
   * every call from the N-th on fires (until the counter would wrap).
   */
  lemma LaterCallsFireAgain(l: ListenToTest, engines: seq<Engine>, hosts: seq<string>)
    requires |engines| <= MaxInt32
    requires |hosts| <= |engines| - MinInt32
    ensures var r := NotifyAll(SetStartedRemoteEngines(l, engines), hosts);
            forall i :: 0 <= i < |hosts| ==> (r.fires[i] <==> i + 1 >= |engines|)
  {
    NotifyAllCounts(SetStartedRemoteEngines(l, engines), hosts);
  }

  /** A listener that never had engines recorded (counter 0) fires on every remote call. */
  lemma FreshListenerAlwaysFires(remoteStop: bool, hasReportGenerator: bool, hosts: seq<string>)
    requires |hosts| <= -MinInt32
    ensures var r := NotifyAll(NewListener(remoteStop, hasReportGenerator), hosts);
            forall i :: 0 <= i < |hosts| ==> r.fires[i]
  {
    NotifyAllCounts(NewListener(remoteStop, hasReportGenerator), hosts);
  }

  /** Recording engines forgets whatever the listener held before: the result depends only on the configuration. */
  lemma SetStartedRemoteEnginesReplaces(l1: ListenToTest, l2: ListenToTest, engines: seq<Engine>)
    requires l1.remoteStop == l2.remoteStop && l1.hasReportGenerator == l2.hasReportGenerator
    ensures SetStartedRemoteEngines(l1, engines) == SetStartedRemoteEngines(l2, engines)
  {
  }

  /** Two hosts: the second ends first (2 -> 1) and does not fire; the first ends next (1 -> 0) and fires. */
  lemma TwoHostsExample(l: ListenToTest, e1: Engine, e2: Engine)
    ensures var started := SetStartedRemoteEngines(l, [e1, e2]);
            var afterH2 := TestEndedRemote(started, "h2");
            var afterH1 := TestEndedRemote(afterH2.listener, "h1");
            && afterH2.listener.startedRemoteEngines == 1 && !afterH2.firesTeardown
            && afterH1.listener.startedRemoteEngines == 0 && afterH1.firesTeardown
  {
  }
}

=== FILE: runner.dfy ===
/**
 * DistributedRunner.run(): resolve the hosts, hook a fresh listener under the
 * first root of the test plan, let the base runner start its engines, record
 * them in the listener and start the test.  The JMeter base class (init,
 * getEngines, start) is foreign: `init` is a step of the trace and the engines
 * it creates are an input.
 */
module Runner {

  import opened Common
  import HostList
  import opened Teardown
  import opened Listener

  /** An element of the test plan tree. */
  datatype Element = Element(name: string)

  /** The steps run() takes, in the order they occur. */
  datatype RunStep =
    | AttachListener(root: Element)        // the listener is attached under the first root element
    | Init(hosts: seq<string>)             // the base runner creates one engine per host
    | RecordEngines(engines: seq<Engine>)  // a copy of the created engines is recorded in the listener
    | Start                                // the base runner starts the test on its engines

  /** run() throws when the test plan has no root element to hang the listener on. */
  datatype RunError = EmptyTestPlan

  /** What a successful run() leaves behind: the steps it took and the listener it attached. */
  datatype Started = Started(steps: seq<RunStep>, listener: ListenToTest)

  /** Position of a step kind in the order run() takes them; four steps in strictly increasing rank are each kind once. */
  function StepRank(s: RunStep): nat {
    match s
    case AttachListener(_) => 0
    case Init(_) => 1
    case RecordEngines(_) => 2
    case Start => 3
  }

  /**
   * run() on a runner configured with `hostsConfig`, over a test plan whose
   * root elements are `roots`; `engines` are the engines the base runner's
   * init starts.
   */
  function Run(hostsConfig: string, roots: seq<Element>, engines: seq<Engine>): (r: Result<Started, RunError>)
    ensures r.Failure? <==> roots == []
    ensures r.Success? ==>
              && r.value.listener == SetStartedRemoteEngines(NewListener(false, false), engines)
              && (forall i, j :: 0 <= i < j < |r.value.steps| ==> StepRank(r.value.steps[i]) < StepRank(r.value.steps[j]))
              && |r.value.steps| == 4
              && (forall i :: 0 <= i < |r.value.steps| && r.value.steps[i].AttachListener? ==> r.value.steps[i].root == roots[0])
              && (forall i :: 0 <= i < |r.value.steps| && r.value.steps[i].Init? ==> r.value.steps[i].hosts == HostList.Tokenize(hostsConfig))
              && (forall i :: 0 <= i < |r.value.steps| && r.value.steps[i].RecordEngines? ==> r.value.steps[i].engines == engines)
  {
    var hosts := HostList.Tokenize(hostsConfig);
    var listener := NewListener(false, false);
    if roots == [] then Failure(EmptyTestPlan)
    else
      var steps := [AttachListener(roots[0]), Init(hosts), RecordEngines(engines), Start];
      Success(Started(steps, SetStartedRemoteEngines(listener, engines)))
  }

  /**
   * After a successful run over N >= 1 engines, the N-th remote "test ended"
   * call is the only one among the first N to start the teardown, and that
   * teardown (no remoteStop, no report generator) exits no engine: it
   * settles, tidies RMI, runs the thread check and ends the run.
   */
  lemma RunThenAllEnginesEnd(hostsConfig: string, roots: seq<Element>, engines: seq<Engine>,
                             hosts: seq<string>, pauseProperty: Option<int>)
    requires roots != []
    requires 1 <= |engines| <= MaxInt32 && |hosts| == |engines|
    ensures var l := Run(hostsConfig, roots, engines).value.listener;
            var r := NotifyAll(l, hosts);
            && (forall i :: 0 <= i < |hosts| ==> (r.fires[i] <==> i == |hosts| - 1))
            && RemoteTestStopper(r.listener, true, pauseProperty)
               == [Settle(SettleSeconds), TidyRMI] + CheckForRemainingThreads(pauseProperty) + [EndOfRun]
  {
    OnlyLastOfFirstNFires(NewListener(false, false), engines, hosts);
  }
}

=== FILE: teardown.dfy ===
/**
 * The teardown a ListenToTest performs when a run ends (endTest and
 * checkForRemainingThreads), as the ordered trace of its observable effects.
 *
 * The foreign calls become events: JMeterEngine.exit is `Exit`, the five
 * second sleep is `Settle`, ClientJMeterEngine.tidyRMI is `TidyRMI`, and
 * ReportGenerator.generate is `GenerateReport` followed by the branch the
 * try/catch takes.  Logging is not an effect.
 */
module Teardown {

  import opened Common

  /** An opaque handle on a started remote engine. */
  datatype Engine = Engine(id: nat)

  datatype Effect =
    | Exit(engine: Engine)                 // the engine is told to exit
    | Settle(seconds: nat)                 // sleep so listeners can close their files
    | TidyRMI                              // the RMI client resources are released
    | GenerateReport                       // the report generator is invoked
    | ReportOk                             // ... and returned normally
    | ReportFailed                         // ... and threw an Exception, which is caught and logged
    | ScheduleThreadCheck(pause: int)      // daemon thread started that lists leftover threads after `pause` ms
    | DebugNoCheck                         // the check is disabled; only a debug line is written
    | EndOfRun                             // "... end of run"

  /** Seconds the distributed teardown sleeps before tidying RMI. */
  const SettleSeconds: nat := 5

  /** Default of the property jmeter.exit.check.pause, in milliseconds. */
  const DefaultExitCheckPause: int := 2000

  /** JMeterUtils.getPropDefault("jmeter.exit.check.pause", 2000), given the property's parsed value. */
  function ExitCheckPause(property: Option<int>): int
  {
    property.GetOr(DefaultExitCheckPause)
  }

  // ---------------------------------------------------------------------------
  // The trace
  // ---------------------------------------------------------------------------

  /** One Exit per engine, in queue order. */
  function ExitAll(engines: seq<Engine>): (trace: seq<Effect>)
    ensures |trace| == |engines|
    ensures forall i :: 0 <= i < |engines| ==> trace[i] == Exit(engines[i])
  {
    if engines == [] then [] else [Exit(engines[0])] + ExitAll(engines[1..])
  }

  /** The remote part of endTest: only for a distributed end. */
  function RemotePhase(isDistributed: bool, remoteStop: bool, engines: seq<Engine>): seq<Effect>
  {
    if !isDistributed then []
    else (if remoteStop then ExitAll(engines) else []) + [Settle(SettleSeconds), TidyRMI]
  }

  /** The report part of endTest: only when a generator is configured. */
  function ReportPhase(hasReportGenerator: bool, reportSucceeds: bool): seq<Effect>
  {
    if !hasReportGenerator then []
    else [GenerateReport, if reportSucceeds then ReportOk else ReportFailed]
  }

  /**
   * checkForRemainingThreads: read the exit-check pause (its property, or 2000
   * when unset), then schedule the leftover-thread check if it is positive or
   * say the check is disabled.
   */
  function CheckForRemainingThreads(pauseProperty: Option<int>): (trace: seq<Effect>)
    ensures |trace| == 1
    ensures trace[0].ScheduleThreadCheck? <==> ExitCheckPause(pauseProperty) > 0
    ensures trace[0] == DebugNoCheck <==> ExitCheckPause(pauseProperty) <= 0
    ensures trace[0].ScheduleThreadCheck? ==> trace[0].pause == ExitCheckPause(pauseProperty)
  {
    var pause := ExitCheckPause(pauseProperty);
    if pause > 0 then [ScheduleThreadCheck(pause)] else [DebugNoCheck]
  }

  /**
   * endTest(isDistributed) of a listener configured with `remoteStop`,
   * holding `engines` and (if `hasReportGenerator`) a report generator whose
   * generate() returns normally iff `reportSucceeds` (otherwise it throws an
   * Exception, which the teardown catches); `pauseProperty` is the
   * jmeter.exit.check.pause property, if set.  Every foreign call is assumed
   * to return or to throw only what the code catches, so the trace always
   * runs to the end of the run.
   */
  function EndTest(isDistributed: bool, remoteStop: bool, engines: seq<Engine>,
                   hasReportGenerator: bool, reportSucceeds: bool, pauseProperty: Option<int>): (trace: seq<Effect>)
    ensures |trace| > 0 && trace[|trace| - 1] == EndOfRun
  {
    RemotePhase(isDistributed, remoteStop, engines)
    + ReportPhase(hasReportGenerator, reportSucceeds)
    + CheckForRemainingThreads(pauseProperty)
    + [EndOfRun]
  }

  // ---------------------------------------------------------------------------
  // Reading a trace
  // ---------------------------------------------------------------------------

  /** The engines a trace exits, in order. */
  function Exits(trace: seq<Effect>): seq<Engine>
  {
    if trace == [] then []
    else if trace[0].Exit? then [trace[0].engine] + Exits(trace[1..])
    else Exits(trace[1..])
  }

  /** The teardown step an effect belongs to; a well-formed trace never goes back to an earlier step. */
  function Phase(e: Effect): nat
  {
    match e
    case Exit(_) => 0
    case Settle(_) => 1
    case TidyRMI => 2
    case GenerateReport => 3
    case ReportOk => 4
    case ReportFailed => 4
    case ScheduleThreadCheck(_) => 5
    case DebugNoCheck => 5
    case EndOfRun => 6
  }

  /** Effects appear phase by phase, and every phase but the exits has at most one effect. */
  predicate Ordered(trace: seq<Effect>) {
    forall i, j :: 0 <= i < j < |trace| ==>
      Phase(trace[i]) <= Phase(trace[j]) && (Phase(trace[i]) == Phase(trace[j]) ==> Phase(trace[i]) == 0)
  }

  lemma {:induction false} ExitsAppend(a: seq<Effect>, b: seq<Effect>)
    ensures Exits(a + b) == Exits(a) + Exits(b)
    decreases |a|
  {
    if a == [] {
      assert a + b == b;
    } else {
      assert (a + b)[1..] == a[1..] + b;
      ExitsAppend(a[1..], b);
    }
  }

  lemma {:induction false} ExitsOfExitAll(engines: seq<Engine>)
    ensures Exits(ExitAll(engines)) == engines
    decreases |engines|
  {
    if engines != [] {
      assert ExitAll(engines)[1..] == ExitAll(engines[1..]);
      ExitsOfExitAll(engines[1..]);
    }
  }

  lemma ExitsOfNoExit(trace: seq<Effect>)
    requires forall i :: 0 <= i < |trace| ==> !trace[i].Exit?
    ensures Exits(trace) == []
  {
  }

  // ---------------------------------------------------------------------------
  // Properties of endTest
  // ---------------------------------------------------------------------------

  /** The engines exited are the whole queue, in order, iff the end is distributed with remoteStop; otherwise none. */
  lemma EndTestExits(isDistributed: bool, remoteStop: bool, engines: seq<Engine>,
                     hasReportGenerator: bool, reportSucceeds: bool, pauseProperty: Option<int>)
    ensures Exits(EndTest(isDistributed, remoteStop, engines, hasReportGenerator, reportSucceeds, pauseProperty))
            == (if isDistributed && remoteStop then engines else [])
  {
    var remote := RemotePhase(isDistributed, remoteStop, engines);
    var rest := ReportPhase(hasReportGenerator, reportSucceeds) + CheckForRemainingThreads(pauseProperty) + [EndOfRun];
    assert EndTest(isDistributed, remoteStop, engines, hasReportGenerator, reportSucceeds, pauseProperty) == remote + rest;
    assert Exits(rest) == [] by {
      ExitsOfNoExit(rest);
    }
    assert Exits(remote) == (if isDistributed && remoteStop then engines else []) by {
      RemotePhaseExits(isDistributed, remoteStop, engines);
    }
    ExitsAppend(remote, rest);
  }

  lemma RemotePhaseExits(isDistributed: bool, remoteStop: bool, engines: seq<Engine>)
    ensures Exits(RemotePhase(isDistributed, remoteStop, engines)) == (if isDistributed && remoteStop then engines else [])
  {
    if isDistributed {
      var stops := if remoteStop then ExitAll(engines) else [];
      var settle := [Settle(SettleSeconds), TidyRMI];
      assert RemotePhase(isDistributed, remoteStop, engines) == stops + settle;
      ExitsAppend(stops, settle);
      ExitsOfNoExit(settle);
      if remoteStop {
        ExitsOfExitAll(engines);
      }
    }
  }

  /** Every effect of `a` is in a phase before `p`. */
  predicate Below(a: seq<Effect>, p: nat) {
    forall i :: 0 <= i < |a| ==> Phase(a[i]) < p
  }

  /** Every effect of `b` is in phase `p` or later. */
  predicate From(b: seq<Effect>, p: nat) {
    forall j :: 0 <= j < |b| ==> p <= Phase(b[j])
  }

  /** Two ordered traces stay ordered when every phase of the first is below every phase of the second. */
  lemma OrderedAppend(a: seq<Effect>, b: seq<Effect>, p: nat)
    requires Ordered(a) && Ordered(b)
    requires Below(a, p) && From(b, p)
    ensures Ordered(a + b)
  {
    forall i, j | 0 <= i < j < |a + b|
      ensures Phase((a + b)[i]) <= Phase((a + b)[j])
      ensures Phase((a + b)[i]) == Phase((a + b)[j]) ==> Phase((a + b)[i]) == 0
    {
      if j < |a| {
        assert (a + b)[i] == a[i] && (a + b)[j] == a[j];
      } else if i >= |a| {
        assert (a + b)[i] == b[i - |a|] && (a + b)[j] == b[j - |a|];
      } else {
        assert (a + b)[i] == a[i] && (a + b)[j] == b[j - |a|];
      }
    }
  }

  lemma BelowAppend(a: seq<Effect>, b: seq<Effect>, p: nat)
    requires Below(a, p) && Below(b, p)
    ensures Below(a + b, p)
  {
    assert forall i :: 0 <= i < |a + b| ==> (a + b)[i] == if i < |a| then a[i] else b[i - |a|];
  }

  lemma RemotePhaseOrdered(isDistributed: bool, remoteStop: bool, engines: seq<Engine>)
    ensures Ordered(RemotePhase(isDistributed, remoteStop, engines))
    ensures Below(RemotePhase(isDistributed, remoteStop, engines), 3)
  {
    if isDistributed {
      var stops := if remoteStop then ExitAll(engines) else [];
      assert forall i :: 0 <= i < |stops| ==> Phase(stops[i]) == 0;
      OrderedAppend(stops, [Settle(SettleSeconds), TidyRMI], 1);
      BelowAppend(stops, [Settle(SettleSeconds), TidyRMI], 3);
    }
  }

  lemma OrderedPhases(remote: seq<Effect>, report: seq<Effect>, check: seq<Effect>)
    requires Ordered(remote) && Below(remote, 3)
    requires Ordered(report) && From(report, 3) && Below(report, 5)
    requires Ordered(check) && From(check, 5) && Below(check, 6)
    ensures Ordered(remote + report + check + [EndOfRun])
  {
    OrderedAppend(remote, report, 3);
    BelowAppend(remote, report, 5);
    OrderedAppend(remote + report, check, 5);
    BelowAppend(remote + report, check, 6);
    OrderedAppend(remote + report + check, [EndOfRun], 6);
  }

  /** Every trace endTest produces is ordered phase by phase. */
  lemma EndTestOrdered(isDistributed: bool, remoteStop: bool, engines: seq<Engine>,
                       hasReportGenerator: bool, reportSucceeds: bool, pauseProperty: Option<int>)
    ensures Ordered(EndTest(isDistributed, remoteStop, engines, hasReportGenerator, reportSucceeds, pauseProperty))
  {
    var report := ReportPhase(hasReportGenerator, reportSucceeds);
    var check := CheckForRemainingThreads(pauseProperty);
    RemotePhaseOrdered(isDistributed, remoteStop, engines);
    assert Ordered(report) && From(report, 3) && Below(report, 5);
    assert Ordered(check) && From(check, 5) && Below(check, 6);
    OrderedPhases(RemotePhase(isDistributed, remoteStop, engines), report, check);
  }

  /**
   * A distributed end with remoteStop exits every engine in queue order
   * before anything else, then settles, then tidies RMI.
   */
  lemma DistributedRemoteStopPrefix(engines: seq<Engine>, hasReportGenerator: bool, reportSucceeds: bool, pauseProperty: Option<int>)
    ensures var trace := EndTest(true, true, engines, hasReportGenerator, reportSucceeds, pauseProperty);
            && |trace| > |engines| + 1
            && (forall i :: 0 <= i < |engines| ==> trace[i] == Exit(engines[i]))
            && trace[|engines|] == Settle(SettleSeconds)
            && trace[|engines| + 1] == TidyRMI
  {
  }

  /** A distributed end without remoteStop exits nothing: it starts by settling, then tidies RMI. */
  lemma DistributedWithoutRemoteStop(engines: seq<Engine>, hasReportGenerator: bool, reportSucceeds: bool, pauseProperty: Option<int>)
    ensures var trace := EndTest(true, false, engines, hasReportGenerator, reportSucceeds, pauseProperty);
            && (forall i :: 0 <= i < |trace| ==> !trace[i].Exit?)
            && trace[0] == Settle(SettleSeconds) && trace[1] == TidyRMI
  {
  }

  /**
   * A local end (testEnded()) exits, settles and tidies nothing: it is the
   * optional report step, then the thread check, then the end of the run.
   */
  lemma LocalEnd(remoteStop: bool, engines: seq<Engine>, hasReportGenerator: bool, reportSucceeds: bool, pauseProperty: Option<int>)
    ensures var trace := EndTest(false, remoteStop, engines, hasReportGenerator, reportSucceeds, pauseProperty);
            && (forall i :: 0 <= i < |trace| ==> !trace[i].Exit? && !trace[i].Settle? && trace[i] != TidyRMI)
            && |trace| == (if hasReportGenerator then 4 else 2)
            && Phase(trace[|trace| - 2]) == 5
            && trace[|trace| - 1] == EndOfRun
  {
  }

  /** An effect whose phase is at or past `p` does not occur in a trace below `p`. */
  lemma NotInBelow(a: seq<Effect>, e: Effect, p: nat)
    requires Below(a, p) && p <= Phase(e)
    ensures e !in a
  {
  }

  /**
   * The report is generated iff a generator is present, and the outcome the
   * try/catch takes shows as ReportOk or ReportFailed.
   */
  lemma ReportHandling(isDistributed: bool, remoteStop: bool, engines: seq<Engine>,
                       hasReportGenerator: bool, reportSucceeds: bool, pauseProperty: Option<int>)
    ensures var trace := EndTest(isDistributed, remoteStop, engines, hasReportGenerator, reportSucceeds, pauseProperty);
            && (GenerateReport in trace <==> hasReportGenerator)
            && (ReportOk in trace <==> hasReportGenerator && reportSucceeds)
            && (ReportFailed in trace <==> hasReportGenerator && !reportSucceeds)
  {
    var remote := RemotePhase(isDistributed, remoteStop, engines);
    var report := ReportPhase(hasReportGenerator, reportSucceeds);
    var tail := CheckForRemainingThreads(pauseProperty) + [EndOfRun];
    assert EndTest(isDistributed, remoteStop, engines, hasReportGenerator, reportSucceeds, pauseProperty) == remote + report + tail;
    RemotePhaseOrdered(isDistributed, remoteStop, engines);
    NotInBelow(remote, GenerateReport, 3);
    NotInBelow(remote, ReportOk, 3);
    NotInBelow(remote, ReportFailed, 3);
  }

  /** A failing report generator does not stop the teardown: the thread check and the end of the run follow it. */
  lemma ReportFailureContinues(isDistributed: bool, remoteStop: bool, engines: seq<Engine>, pauseProperty: Option<int>)
    ensures var trace := EndTest(isDistributed, remoteStop, engines, true, false, pauseProperty);
            && ReportFailed in trace
            && |trace| >= 3 && trace[|trace| - 3] == ReportFailed
            && (forall i :: 0 <= i < |trace| && trace[i] == ReportFailed ==>
                  i + 2 == |trace| - 1 && Phase(trace[i + 1]) == 5 && trace[i + 2] == EndOfRun)
  {
    var trace := EndTest(isDistributed, remoteStop, engines, true, false, pauseProperty);
    var remote := RemotePhase(isDistributed, remoteStop, engines);
    var k := |remote|;
    RemotePhaseOrdered(isDistributed, remoteStop, engines);
    assert trace == remote + [GenerateReport, ReportFailed] + CheckForRemainingThreads(pauseProperty) + [EndOfRun];
    assert |trace| == k + 4;
    forall i | 0 <= i < |trace| && trace[i] == ReportFailed
      ensures i == k + 1
    {
    }
  }

  /** The leftover-thread check is scheduled iff the pause is positive; otherwise only the debug line appears. */
  lemma ThreadCheck(isDistributed: bool, remoteStop: bool, engines: seq<Engine>,
                    hasReportGenerator: bool, reportSucceeds: bool, pauseProperty: Option<int>)
    ensures var trace := EndTest(isDistributed, remoteStop, engines, hasReportGenerator, reportSucceeds, pauseProperty);
            var pause := ExitCheckPause(pauseProperty);
            && (ScheduleThreadCheck(pause) in trace <==> pause > 0)
            && (DebugNoCheck in trace <==> pause <= 0)
  {
    var pause := ExitCheckPause(pauseProperty);
    var remote := RemotePhase(isDistributed, remoteStop, engines);
    var report := ReportPhase(hasReportGenerator, reportSucceeds);
    RemotePhaseOrdered(isDistributed, remoteStop, engines);
    assert Below(report, 5);
    BelowAppend(remote, report, 5);
    var prefix := remote + report;
    assert EndTest(isDistributed, remoteStop, engines, hasReportGenerator, reportSucceeds, pauseProperty)
        == prefix + CheckForRemainingThreads(pauseProperty) + [EndOfRun];
    NotInBelow(prefix, ScheduleThreadCheck(pause), 5);
    NotInBelow(prefix, DebugNoCheck, 5);
  }

  /**
   * With jmeter.exit.check.pause unset, every teardown schedules the
   * leftover-thread check after the default 2000 ms; a property of 0 or less
   * disables it.
   */
  lemma DefaultPauseSchedulesCheck(isDistributed: bool, remoteStop: bool, engines: seq<Engine>,
                                   hasReportGenerator: bool, reportSucceeds: bool, setting: int)
    ensures ScheduleThreadCheck(2000) in EndTest(isDistributed, remoteStop, engines, hasReportGenerator, reportSucceeds, None)
    ensures setting <= 0 ==>
              var trace := EndTest(isDistributed, remoteStop, engines, hasReportGenerator, reportSucceeds, Some(setting));
              DebugNoCheck in trace && forall i :: 0 <= i < |trace| ==> !trace[i].ScheduleThreadCheck?
  {
    ThreadCheck(isDistributed, remoteStop, engines, hasReportGenerator, reportSucceeds, None);
    if setting <= 0 {
      var trace := EndTest(isDistributed, remoteStop, engines, hasReportGenerator, reportSucceeds, Some(setting));
      ThreadCheck(isDistributed, remoteStop, engines, hasReportGenerator, reportSucceeds, Some(setting));
      EndTestOrdered(isDistributed, remoteStop, engines, hasReportGenerator, reportSucceeds, Some(setting));
    }
  }
}
